=== FILE: README.md ===
# Paystack wallet service — a Dafny model of its core

The service keeps a wallet per user, with balances in naira to two decimals; the model
counts kobo. Money comes in through Paystack deposits, whose outcome a webhook settles,
and moves between wallets through peer transfers. After Google sign-in the service
signs its own JWT; callers authenticate with that token or with API keys. A key
carries permissions and an expiry instant, computed from a time-to-live code when the
key is issued; each user may hold at most five non-revoked keys. Two scheduled sweeps
time out stale pending deposits and revoke lapsed keys.

This project models that core in Dafny:

- `base.dfy` (`Base`): `Option`, `Result`, and the exception kinds the services raise.
  - `BadRequest`, `Unauthorized` and a plain `Internal` error.
  - `StoreRejected`, for a write that a table constraint refuses.
- `entities.dfy` (`Entities`): the persisted records and their enumerations.
  - Row ids are positions in their table; they stand for the uuid primary keys.
  - Amounts are integers in kobo.
- `tables.dfy` (`Tables`): the store as a `Store` class holding four tables.
  - `findOne` and `find` read a table in insertion order, which the model chooses: `findOne` is "the first row in insertion order that matches" (`FirstWhere`).
  - `Store.Valid()` collects the schema constraints the code relies on:
    - unique `googleId`, `email`, `walletNumber`, `wallet.userId` and `transaction.reference`;
    - the wallet's foreign key to its user;
    - the 8-character `keyPrefix` column.
- `ledger.dfy` (`Ledger`): the wallet service — deposit, transfer, webhook settlement and the read projections.
  - Each state-changing operation is a method on the `Store`.
  - `Transfer` and `HandleWebhook` are proved equal to functions on the wallet and transaction tables (`TransferSpec`, `SettleSpec`); the ledger properties are lemmas about those functions: conservation, idempotence, and the settlement state machine.
  - `Deposit` states the new transaction table directly in its postconditions.
- `credentials.dfy` (`Credentials`): the API-key service.
  - The TTL codes.
  - The cap of five non-revoked keys.
  - Issue, rollover and revoke.
  - The validation loop.
- `sweeps.dfy` (`Sweeps`): the scheduler's two bulk updates, with `now` as a parameter.
- `guards.dfy` (`Guards`): the combined JWT/API-key guard and the API-key-only guard.
- `provisioning.dfy` (`Provisioning`): find-or-create a user at sign-in, and the bounded wallet-number retry loop.

Foreign pieces become parameters:

- the Paystack reply;
- the generated reference;
- the clock (`now`);
- the generated API-key secret and its bcrypt hash;
- `matches(secret, hash)` for `bcrypt.compare`;
- `verify(token)` for JWT verification;
- `draw(k)` for the k-th random wallet-number candidate.

The code has these behaviours, and the model keeps them:

- A transfer checks neither that the amount is positive nor that the recipient differs from the sender. The two consequences below hold once the transfer's rows are accepted by the store; as written, the rows' transaction type is undefined (see the `Ledger.Transfer` line under "## Left out").
  - Sender and recipient are loaded as two separate copies. When they are the same wallet, the recipient's save overwrites the debit. Reading the balance as a number, the wallet then gains the amount (`Ledger.SelfTransferAddsAmount`).
  - A negative amount passes the balance check and moves money from the recipient to the sender (`Ledger.NegativeTransferDebitsRecipient`).
- The webhook handler:
  - never compares the reported amount with the stored one;
  - never reads or records the event id (`paystackEventId`);
  - keeps no record of events already seen.

  A repeated event is a no-op only because the row is no longer pending (`Ledger.SettleIdempotent`).
- Validation scans every non-revoked key and compares hashes; it never narrows the scan by key prefix. `keyPrefix` is never written (it is `None` in every issued row).
- The cap counts keys that have expired but are not revoked. Rollover does not consult the cap (`Credentials.RolloverApiKey`).

## Model

| member | source | states |
|---|---|---|
| Tables.Store.constructor | src/migrations/1733844000000-InitialSchema.ts:10-26 | the empty store satisfies `Valid()`: unique googleId and email, unique wallet number, at most one wallet per user, every wallet's owner exists, unique non-null references, key prefixes of at most 8 characters. Every state-changing method keeps `Valid()` |
| Tables.FirstWhere | src/wallet/wallet.service.ts:84-92 | `findOne`: the answer is a matching row with no match before it; None exactly when no row matches |
| Ledger.PayerEmail | src/wallet/wallet.service.ts:54 | the caller's email when present and non-empty; otherwise (absent or empty) "test@example.com". The result is never empty |
| Ledger.Deposit | src/wallet/wallet.service.ts:22-76 | no wallet: "Failed to initialize payment: Wallet not found", nothing written, gateway not called. Reference already taken: the insert is refused and no row is written. Otherwise one deposit row is appended and the gateway gets (amount, payer email, reference, callback URL); the row stays pending if the gateway answers, and is failed with the gateway's message otherwise. A failed call never leaves a pending row; the store constraints are kept |
| Ledger.TransferSpec | src/wallet/wallet.service.ts:83-124 | a refused transfer changes nothing; wallets differ at most in balances; an accepted one appends exactly two rows and keeps the earlier ones |
| Ledger.MoveBalance | src/wallet/wallet.service.ts:95-102 | the two saves touch only balances |
| Ledger.Transfer | src/wallet/wallet.service.ts:83-124 | the store after the method equals `TransferSpec` on the store before it; users and keys are unchanged; the store constraints are kept |
| Ledger.TransferRefusals | src/wallet/wallet.service.ts:84-92 | no sender wallet, or a balance below the amount: "Insufficient balance" with no change. Unknown recipient number: the transfer fails with no change; with a sender that passes the balance check, "Recipient wallet not found" |
| Ledger.TransferMovesMoney | src/wallet/wallet.service.ts:95-120 | an accepted transfer succeeds. For distinct wallets the sender loses the amount and the recipient gains it; a self-transfer gains it. No other wallet changes. The rows appended are the sender's success row (with the recipient's wallet number) and the recipient owner's success row |
| Ledger.MoveBalanceTotal | src/wallet/wallet.service.ts:95-102 | the total of all balances is unchanged between distinct wallets, and rises by the amount when sender and recipient coincide |
| Ledger.TransferConservesTotal | src/wallet/wallet.service.ts:95-102 | an accepted transfer between distinct wallets leaves the total of all balances unchanged |
| Ledger.SelfTransferAddsAmount | src/wallet/wallet.service.ts:84-102 | an accepted transfer to one's own wallet raises the total by the amount |
| Ledger.NegativeTransferDebitsRecipient | src/wallet/wallet.service.ts:85-101 | a negative amount between distinct wallets is accepted and lowers the recipient's balance |
| Ledger.SettleSpec | src/wallet/wallet.service.ts:148-189 | wallets differ at most in balances. Only a row's status can change, and only from pending to success or failed |
| Ledger.HandleWebhook | src/wallet/wallet.service.ts:148-189 | the store after the handler equals `SettleSpec` on the store before it; users and keys are unchanged; the store constraints are kept |
| Ledger.SettleIgnoresUnknownOrSettled | src/wallet/wallet.service.ts:154-160 | an unknown reference, or a row that is no longer pending, changes nothing |
| Ledger.SettleSuccessCredits | src/wallet/wallet.service.ts:162-183 | "success" on a pending row marks it success and credits exactly the row's amount to the owner's wallet, raising the total by that amount. With no wallet, only the status changes |
| Ledger.SettleFailureMovesNoMoney | src/wallet/wallet.service.ts:184-188 | any other status marks the pending row failed and leaves every wallet as it was |
| Ledger.SettleIdempotent | src/wallet/wallet.service.ts:154-188 | a second notification for the same reference, whatever it reports, changes nothing, so an event credits at most once |
| Ledger.DepositThenSettle | src/wallet/wallet.service.ts:162-179 | a fresh deposit row followed by its "success" notification becomes success, and the depositor's wallet gains exactly the deposited amount |
| Ledger.GetBalance | src/wallet/wallet.service.ts:78-81 | 0 when the caller has no wallet. Otherwise the balance of a wallet the caller owns, which is the caller's one wallet under the unique wallet owner constraint |
| Ledger.GetDepositStatus | src/wallet/wallet.service.ts:126-136 | "Transaction not found" exactly when no row carries the reference. Otherwise the status and amount of the row carrying it |
| Ledger.OwnedRows | src/wallet/wallet.service.ts:139 | the positions of the caller's rows: each holds a row the caller owns, they strictly increase, and no owned row is missing |
| Ledger.GetTransactions | src/wallet/wallet.service.ts:138-146 | one view per row the caller owns, in the model's insertion order: the k-th view is the (type, amount, status) of the k-th owned row. Every view comes from an owned row and every owned row appears |
| Credentials.CalculateExpiry | src/api-key/api-key.service.ts:99-113 | succeeds exactly for 1H/1D/1M/1Y, giving now + 1 h / 24 h / 30 d / 365 d, always later than now. Any other code is "Invalid expiry format" |
| Credentials.ActiveKeyCount | src/api-key/api-key.service.ts:19-21 | the count of the user's non-revoked keys is bounded by the table, and is zero exactly when no key counts |
| Credentials.RevokeFreesSlot | src/api-key/api-key.service.ts:19-24 | revoking a counted key lowers the cap count by exactly one |
| Credentials.ExpiryDoesNotFreeSlot | src/api-key/api-key.service.ts:19-22 | a key's expiry plays no part in the cap count |
| Credentials.CreateApiKey | src/api-key/api-key.service.ts:18-43 | five or more non-revoked keys: the cap error. A bad TTL code: the expiry error. Otherwise exactly one row is appended, holding the hash and the expiry, not revoked; the plaintext is only returned. The count after issuing is at most five; other tables are unchanged |
| Credentials.RolloverApiKey | src/api-key/api-key.service.ts:45-70 | refused unless the key is the caller's, not revoked, and has expired. Otherwise one new key is appended with the old key's name and permissions; the old key is untouched. The count grows by one with no bound |
| Credentials.RevokeApiKey | src/api-key/api-key.service.ts:72-81 | succeeds exactly for the caller's own key. Only that key's `revoked` flag changes; revoking twice changes nothing; a failure changes nothing |
| Credentials.ValidateOutcome | src/api-key/api-key.service.ts:83-97 | none exactly when no non-revoked key matches. A grant is the owner and permissions of a matching unexpired key. "API key expired" only when a matching key has expired |
| Credentials.ValidateApiKey | src/api-key/api-key.service.ts:88-96 | the loop returns what `ValidateOutcome` specifies: the first matching non-revoked key decides |
| Credentials.IssuedKeyValidates | src/api-key/api-key.service.ts:27-37 | a newly issued key validates to its owner and permissions until it expires, provided no earlier key matches the same secret |
| Sweeps.SweepPending | src/scheduler/scheduler.service.ts:24-35 | every pending row created more than 24 h before now becomes failed, with the timeout description. Every other row is unchanged. Only status and description change |
| Sweeps.SweepPendingLeavesNoStaleRow | src/scheduler/scheduler.service.ts:26-35 | after the sweep no stale pending row remains |
| Sweeps.SweepPendingIdempotent | src/scheduler/scheduler.service.ts:26-35 | running the sweep twice at the same instant equals running it once |
| Sweeps.TimeoutPendingTransactions | src/scheduler/scheduler.service.ts:21-40 | the transaction table becomes `SweepPending` of the old one; wallets, users and keys are unchanged |
| Sweeps.SweepExpiredKeys | src/scheduler/scheduler.service.ts:47-55 | every non-revoked key that expired before now is revoked. All other keys are unchanged |
| Sweeps.SweepExpiredKeysIdempotent | src/scheduler/scheduler.service.ts:47-55 | running the key sweep twice at the same instant equals running it once |
| Sweeps.ValidateAfterSweepNeverExpired | src/scheduler/scheduler.service.ts:47-55 | after the key sweep, validation at the same instant never reports an expired key |
| Sweeps.CleanupExpiredApiKeys | src/scheduler/scheduler.service.ts:44-60 | the key table becomes `SweepExpiredKeys` of the old one; the other tables are unchanged |
| Guards.MissingPermission | src/guards/combined-auth.guard.ts:41-47 | None exactly when every required permission is granted; otherwise the first required permission that is not granted |
| Guards.KeyDecision | src/guards/combined-auth.guard.ts:32-50 | a validation error propagates; no match is "Invalid API key". A match is admitted, as its key's owner, exactly when the required permissions are a subset of the granted ones; no requirement admits. A refusal names a missing permission |
| Guards.CombinedAuthGuard | src/guards/combined-auth.guard.ts:15-54 | a "Bearer " header decides alone: the token is the header after its first 7 characters. A verified token admits {sub, email} with no permission check; a rejected one is "Invalid JWT token". Otherwise a present API key follows `KeyDecision`. With neither, "Authentication required" |
| Guards.ApiKeyGuard | src/guards/api-key.guard.ts:10-37 | no key header: "API key required". Otherwise the decision is `KeyDecision` of the validation outcome |
| Guards.ApiKeyBranch | src/guards/api-key.guard.ts:18-36 | validation followed by the permission loop yields exactly `KeyDecision` |
| Provisioning.GenerateWalletNumber | src/auth/auth.service.ts:70-84 | the number returned is in use by no wallet, and is the first unused one among the first ten draws. It fails exactly when all ten are in use |
| Provisioning.FindOrCreateUser | src/auth/auth.service.ts:19-62 | a known Google id returns that user and creates nothing. A new id whose email is taken is refused. Otherwise exactly one user is created and returned, with a balance-0 wallet carrying an unused number unless all ten draws were in use; that failure does not abort sign-in. The store constraints are kept |

## Left out

- The Paystack HTTP client is not modelled; its reply is a parameter (`GatewayReply`). Ledger.Deposit takes the gateway's error message as the reply's `message`, without distinguishing `error.response.data.message` from `error.message`.
- bcrypt hashing and comparison are not modelled; the hash is a parameter and comparison is the `matches` oracle.
- The webhook's HMAC-SHA512 signature check, raw-body handling and JSON parsing are not modelled. They live in the controller, and `HandleWebhook` starts from an authenticated event's reference and status.
- JWT signing (`generateJwt`) is not modelled, and JWT verification is the `verify` oracle.
- `Math.random` and `Date.now` are not modelled. The deposit reference, the API-key secret, the wallet-number candidates and `now` are parameters.
- Concurrency, locking and the ORM transaction are not modelled: each service call is one atomic step, and nothing is claimed about interleavings.
- Ledger.Transfer: the code writes both transfer rows with `TransactionType.TRANSFER` (src/wallet/wallet.service.ts:107,116), which is not a member of the enum (src/entities/transaction.entity.ts:10-14) and so is undefined. The `type` column is NOT NULL with no default, so as written the row insert would be refused and the surrounding ORM transaction (:95) would roll back both balance saves: no transfer would complete. The model does not capture that refusal; it writes the evidently intended `OutgoingTransfer` row for the sender and `IncomingTransfer` row for the recipient.
- Ledger.GetTransactions: `find` (src/wallet/wallet.service.ts:139) issues no ORDER BY, so the database may return the rows in any order, which can differ from insertion order once a row has been updated. The model returns them in insertion order. The same choice fixes which row `findOne` returns first and which key the validation loop (src/api-key/api-key.service.ts:84-95) tries first when two keys match one secret.
- Ledger.Transfer: assumes `+=` on the recipient's balance (src/wallet/wallet.service.ts:101) adds numbers. The webhook handler coerces the decimal column with `Number(...)` (:174-175), which suggests the store returns it as a string; there `+=` would concatenate. The transfer's balance properties (`TransferMovesMoney`, `TransferConservesTotal`, `SelfTransferAddsAmount`) hold only under the numeric reading.
- Amounts: the decimal(10,2) columns are unbounded integers in kobo. The model does not capture numeric overflow of the column or JavaScript number rounding.
- Store writes can fail for other reasons (connection loss, and so on); only failures due to the modelled unique constraints are captured.
- A webhook with no reference is not modelled. TypeORM drops an undefined `where` value; the reference is always a string here.
- Permissions are a closed enumeration. An arbitrary string stored in the `simple-array` column is not modelled.
- The `keyPrefix` column is declared NOT NULL, yet issuing never sets it. The model stores `None` rather than modelling the database's refusal of such a row.
- The foreign keys from transactions and API keys to users are not part of `Store.Valid()`.
- In `findOrCreateUser`, the existing user's wallet lookup only logs, and logging throughout is left out; so is the `affected` count the sweeps log.
- The user service (profile read with defaults) is not part of this model.
- Ledger.TransferConservesTotal: conservation is stated only for distinct sender and recipient wallets, because the code does not preserve the total for a self-transfer.

=== FILE: base.dfy ===
/** Optional values, results, and the error kinds the services raise. */
module Base {

  /** A nullable column or an absent value. */
  datatype Option<+T> = None | Some(value: T)

  /** An exception raised by a service, with its message. */
  datatype Error =
    | BadRequest(message: string)      // BadRequestException
    | Unauthorized(message: string)    // UnauthorizedException
    | Internal(message: string)        // a plain Error
    | StoreRejected(message: string)   // a write refused by a table constraint

  /** What an async service call resolves to: a value, or the exception it throws. */
  datatype Result<+T> = Ok(value: T) | Err(error: Error)
}

=== FILE: credentials.dfy ===
/**
 * The API-key service: issuing, rolling over, revoking and validating keys,
 * and the TTL codes. The secret generator, bcrypt hashing and bcrypt
 * comparison are foreign: the generated secret and its hash are
 * parameters, and `matches(secret, hash)` stands for `bcrypt.compare`.
 */
module Credentials {
  import opened Base
  import opened Entities
  import opened Tables

  const MaxActiveKeys := 5
  const HourMs := 60 * 60 * 1000

  const CapReached := "Maximum 5 active API keys allowed per user"
  const InvalidExpiry := "Invalid expiry format"
  const NotRollable := "Invalid or not expired API key"
  const KeyNotFound := "API key not found"
  const KeyExpired := "API key expired"

  /** The TTL codes an issuing request may carry. */
  const ExpiryCodes: set<string> := {"1H", "1D", "1M", "1Y"}

  /** The expiry instant for a TTL code, read at `now`. */
  function CalculateExpiry(expiry: string, now: Millis): (r: Result<Millis>)
    ensures r.Ok? <==> expiry in ExpiryCodes
    ensures r.Ok? ==> r.value > now
    ensures r.Err? ==> r.error == BadRequest(InvalidExpiry)
    ensures expiry == "1H" ==> r == Ok(now + HourMs)
    ensures expiry == "1D" ==> r == Ok(now + 24 * HourMs)
    ensures expiry == "1M" ==> r == Ok(now + 30 * 24 * HourMs)
    ensures expiry == "1Y" ==> r == Ok(now + 365 * 24 * HourMs)
  {
    match expiry
    case "1H" => Ok(now + 60 * 60 * 1000)
    case "1D" => Ok(now + 24 * 60 * 60 * 1000)
    case "1M" => Ok(now + 30 * 24 * 60 * 60 * 1000)
    case "1Y" => Ok(now + 365 * 24 * 60 * 60 * 1000)
    case _ => Err(BadRequest(InvalidExpiry))
  }

  // ---------------------------------------------------------------------
  // The per-user cap

  /** A key the cap counts: the user's and not revoked, whether or not it has expired. */
  predicate CountsAgainstCap(k: ApiKey, userId: UserId) {
    k.userId == userId && !k.revoked
  }

  /** How many of the user's keys are not revoked. */
  function ActiveKeyCount(keys: seq<ApiKey>, userId: UserId): (n: nat)
    ensures n <= |keys|
    ensures n == 0 <==> forall i :: 0 <= i < |keys| ==> !CountsAgainstCap(keys[i], userId)
    decreases |keys|
  {
    if |keys| == 0 then 0
    else ActiveKeyCount(keys[..|keys| - 1], userId) + (if CountsAgainstCap(keys[|keys| - 1], userId) then 1 else 0)
  }

  /** Appending a key adds one to the count exactly when the cap counts it. */
  lemma ActiveKeyCountAppend(keys: seq<ApiKey>, k: ApiKey, userId: UserId)
    ensures ActiveKeyCount(keys + [k], userId) == ActiveKeyCount(keys, userId) + (if CountsAgainstCap(k, userId) then 1 else 0)
  {
    assert (keys + [k])[..|keys|] == keys;
  }

  /** Overwriting one key changes the count by the change in whether the cap counts it. */
  lemma {:induction false} ActiveKeyCountUpdate(keys: seq<ApiKey>, i: nat, k: ApiKey, userId: UserId)
    requires i < |keys|
    ensures ActiveKeyCount(keys[i := k], userId) ==
      ActiveKeyCount(keys, userId) - (if CountsAgainstCap(keys[i], userId) then 1 else 0) + (if CountsAgainstCap(k, userId) then 1 else 0)
    decreases |keys|
  {
    var n := |keys|;
    if i < n - 1 {
      assert keys[i := k][..n - 1] == keys[..n - 1][i := k];
      ActiveKeyCountUpdate(keys[..n - 1], i, k, userId);
    } else {
      assert keys[i := k][..n - 1] == keys[..n - 1];
    }
  }

  /** Revoking a counted key frees exactly one slot under the cap. */
  lemma RevokeFreesSlot(keys: seq<ApiKey>, i: nat, userId: UserId)
    requires i < |keys| && CountsAgainstCap(keys[i], userId)
    ensures ActiveKeyCount(keys[i := keys[i].(revoked := true)], userId) == ActiveKeyCount(keys, userId) - 1
  {
    ActiveKeyCountUpdate(keys, i, keys[i].(revoked := true), userId);
  }

  /** Expiry plays no part in the count: moving a key's expiry leaves the count as it is. */
  lemma ExpiryDoesNotFreeSlot(keys: seq<ApiKey>, i: nat, expiresAt: Millis, userId: UserId)
    requires i < |keys|
    ensures ActiveKeyCount(keys[i := keys[i].(expiresAt := expiresAt)], userId) == ActiveKeyCount(keys, userId)
  {
    ActiveKeyCountUpdate(keys, i, keys[i].(expiresAt := expiresAt), userId);
  }

  // ---------------------------------------------------------------------
  // Issuing, rollover, revocation

  /** What an issuing call returns: the plaintext secret, once, and the expiry. */
  datatype IssuedKey = IssuedKey(apiKey: string, expiresAt: Millis)

  /** The row an issuing call inserts: the hash of the secret, no prefix, not revoked. */
  function NewKeyRow(userId: UserId, hashed: Hash, name: string, permissions: seq<Permission>,
                     expiresAt: Millis, now: Millis): ApiKey {
    ApiKey(userId, None, hashed, name, permissions, expiresAt, false, now)
  }

  /**
   * Issues a key named `name` with `permissions`. `secret` is the generated
   * key and `hashed` its bcrypt hash.
   */
  method CreateApiKey(db: Store, userId: UserId, name: string, permissions: seq<Permission>, expiry: string,
                      now: Millis, secret: string, hashed: Hash)
    returns (r: Result<IssuedKey>)
    requires db.Valid()
    modifies db
    ensures db.Valid()
    ensures db.users == old(db.users) && db.wallets == old(db.wallets) && db.transactions == old(db.transactions)
    ensures ActiveKeyCount(old(db.apiKeys), userId) >= MaxActiveKeys ==>
      r == Err(BadRequest(CapReached)) && db.apiKeys == old(db.apiKeys)
    ensures ActiveKeyCount(old(db.apiKeys), userId) < MaxActiveKeys && expiry !in ExpiryCodes ==>
      r == Err(BadRequest(InvalidExpiry)) && db.apiKeys == old(db.apiKeys)
    ensures ActiveKeyCount(old(db.apiKeys), userId) < MaxActiveKeys && expiry in ExpiryCodes ==>
      var expiresAt := CalculateExpiry(expiry, now).value;
      && r == Ok(IssuedKey(secret, expiresAt))
      && db.apiKeys == old(db.apiKeys) + [NewKeyRow(userId, hashed, name, permissions, expiresAt, now)]
    // issuing never takes a user past the cap
    ensures r.Ok? ==> ActiveKeyCount(db.apiKeys, userId) == ActiveKeyCount(old(db.apiKeys), userId) + 1 <= MaxActiveKeys
  {
    var activeKeys := ActiveKeyCount(db.apiKeys, userId);
    if activeKeys >= MaxActiveKeys {
      return Err(BadRequest(CapReached));
    }
    var expiresAt := CalculateExpiry(expiry, now);
    if expiresAt.Err? {
      return Err(expiresAt.error);
    }
    var newKey := NewKeyRow(userId, hashed, name, permissions, expiresAt.value, now);
    ActiveKeyCountAppend(db.apiKeys, newKey, userId);
    db.apiKeys := db.apiKeys + [newKey];
    r := Ok(IssuedKey(secret, expiresAt.value));
  }

  /** A key `rolloverApiKey` accepts: the caller's, not revoked, and with its expiry reached. */
  predicate Rollable(keys: seq<ApiKey>, userId: UserId, keyId: KeyId, now: Millis) {
    keyId < |keys| && keys[keyId].userId == userId && !keys[keyId].revoked && keys[keyId].expiresAt <= now
  }

  /**
   * Replaces an expired key: a new key with the old key's name and
   * permissions. The old key is left as it is and the cap is not consulted.
   */
  method RolloverApiKey(db: Store, userId: UserId, expiredKeyId: KeyId, expiry: string,
                        now: Millis, secret: string, hashed: Hash)
    returns (r: Result<IssuedKey>)
    requires db.Valid()
    modifies db
    ensures db.Valid()
    ensures db.users == old(db.users) && db.wallets == old(db.wallets) && db.transactions == old(db.transactions)
    ensures !Rollable(old(db.apiKeys), userId, expiredKeyId, now) ==>
      r == Err(BadRequest(NotRollable)) && db.apiKeys == old(db.apiKeys)
    ensures Rollable(old(db.apiKeys), userId, expiredKeyId, now) && expiry !in ExpiryCodes ==>
      r == Err(BadRequest(InvalidExpiry)) && db.apiKeys == old(db.apiKeys)
    ensures Rollable(old(db.apiKeys), userId, expiredKeyId, now) && expiry in ExpiryCodes ==>
      var expiresAt := CalculateExpiry(expiry, now).value;
      var expired := old(db.apiKeys)[expiredKeyId];
      && r == Ok(IssuedKey(secret, expiresAt))
      && db.apiKeys == old(db.apiKeys) + [NewKeyRow(userId, hashed, expired.name, expired.permissions, expiresAt, now)]
    // the replacement is counted on top of the keys already held, with no bound
    ensures r.Ok? ==> ActiveKeyCount(db.apiKeys, userId) == ActiveKeyCount(old(db.apiKeys), userId) + 1
  {
    if !(expiredKeyId < |db.apiKeys| && db.apiKeys[expiredKeyId].userId == userId && !db.apiKeys[expiredKeyId].revoked)
       || db.apiKeys[expiredKeyId].expiresAt > now {
      return Err(BadRequest(NotRollable));
    }
    var expiredKey := db.apiKeys[expiredKeyId];
    var expiresAt := CalculateExpiry(expiry, now);
    if expiresAt.Err? {
      return Err(expiresAt.error);
    }
    var newKey := NewKeyRow(userId, hashed, expiredKey.name, expiredKey.permissions, expiresAt.value, now);
    ActiveKeyCountAppend(db.apiKeys, newKey, userId);
    db.apiKeys := db.apiKeys + [newKey];
    r := Ok(IssuedKey(secret, expiresAt.value));
  }

  /** Marks the caller's key revoked; any other key id is an error. */
  method RevokeApiKey(db: Store, userId: UserId, keyId: KeyId) returns (r: Result<()>)
    requires db.Valid()
    modifies db
    ensures db.Valid()
    ensures db.users == old(db.users) && db.wallets == old(db.wallets) && db.transactions == old(db.transactions)
    ensures r.Ok? <==> keyId < |old(db.apiKeys)| && old(db.apiKeys)[keyId].userId == userId
    ensures r.Err? ==> r.error == BadRequest(KeyNotFound) && db.apiKeys == old(db.apiKeys)
    // only the `revoked` column of that one key changes
    ensures r.Ok? ==> db.apiKeys == old(db.apiKeys)[keyId := old(db.apiKeys)[keyId].(revoked := true)]
    // revoking a revoked key changes nothing
    ensures r.Ok? && old(db.apiKeys)[keyId].revoked ==> db.apiKeys == old(db.apiKeys)
  {
    if !(keyId < |db.apiKeys| && db.apiKeys[keyId].userId == userId) {
      return Err(BadRequest(KeyNotFound));
    }
    var key := db.apiKeys[keyId];
    key := key.(revoked := true);
    db.apiKeys := db.apiKeys[keyId := key];
    r := Ok(());
  }

  // ---------------------------------------------------------------------
  // Validation

  /** What a valid key grants: its owner and its permissions. */
  datatype Grant = Grant(userId: UserId, permissions: seq<Permission>)

  /** A key the validation loop accepts for `secret`: not revoked, and its hash matches. */
  predicate IsMatch(k: ApiKey, secret: string, matches: (string, Hash) -> bool) {
    !k.revoked && matches(secret, k.hashedKey)
  }

  function MatchesSecret(secret: string, matches: (string, Hash) -> bool): ApiKey -> bool {
    (k: ApiKey) => IsMatch(k, secret, matches)
  }

  /** The first key the validation loop accepts. */
  function MatchingKey(keys: seq<ApiKey>, secret: string, matches: (string, Hash) -> bool): Option<nat> {
    FirstWhere(keys, MatchesSecret(secret, matches))
  }

  /**
   * What validating `secret` at `now` yields: the grant of the first
   * matching non-revoked key, an "expired" error when that key is past its
   * expiry, and None when no key matches.
   */
  function ValidateOutcome(keys: seq<ApiKey>, secret: string, now: Millis, matches: (string, Hash) -> bool)
    : (r: Result<Option<Grant>>)
    ensures r == Ok(None) <==> forall i :: 0 <= i < |keys| ==> !IsMatch(keys[i], secret, matches)
    ensures r.Ok? && r.value.Some? ==>
      exists i :: 0 <= i < |keys| && IsMatch(keys[i], secret, matches) && keys[i].expiresAt >= now &&
                  r.value.value == Grant(keys[i].userId, keys[i].permissions)
    ensures r.Err? ==> r.error == BadRequest(KeyExpired)
    ensures r.Err? ==> exists i :: 0 <= i < |keys| && IsMatch(keys[i], secret, matches) && keys[i].expiresAt < now
  {
    match MatchingKey(keys, secret, matches)
    case None => Ok(None)
    case Some(i) =>
      if keys[i].expiresAt < now then Err(BadRequest(KeyExpired))
      else Ok(Some(Grant(keys[i].userId, keys[i].permissions)))
  }

  /**
   * The validation loop: scans the non-revoked keys in insertion order and stops
   * at the first whose hash matches.
   */
  method ValidateApiKey(keys: seq<ApiKey>, apiKey: string, now: Millis, matches: (string, Hash) -> bool)
    returns (r: Result<Option<Grant>>)
    ensures r == ValidateOutcome(keys, apiKey, now, matches)
  {
    var i := 0;
    while i < |keys|
      invariant 0 <= i <= |keys|
      invariant forall j :: 0 <= j < i ==> !IsMatch(keys[j], apiKey, matches)
    {
      var key := keys[i];
      if !key.revoked && matches(apiKey, key.hashedKey) {
        assert MatchingKey(keys, apiKey, matches) == Some(i);
        if key.expiresAt < now {
          return Err(BadRequest(KeyExpired));
        }
        return Ok(Some(Grant(key.userId, key.permissions)));
      }
      i := i + 1;
    }
    r := Ok(None);
  }

  /**
   * A freshly issued key validates to its owner and permissions while it is
   * unexpired, provided no earlier key matches the same secret and the
   * stored hash is one `matches` accepts for it.
   */
  lemma IssuedKeyValidates(keys: seq<ApiKey>, userId: UserId, secret: string, hashed: Hash, name: string,
                           permissions: seq<Permission>, expiresAt: Millis, now: Millis, issuedAt: Millis,
                           matches: (string, Hash) -> bool)
    requires forall i :: 0 <= i < |keys| ==> !IsMatch(keys[i], secret, matches)
    requires matches(secret, hashed) && now <= expiresAt
    ensures ValidateOutcome(keys + [NewKeyRow(userId, hashed, name, permissions, expiresAt, issuedAt)], secret, now, matches)
         == Ok(Some(Grant(userId, permissions)))
  {
    var k := NewKeyRow(userId, hashed, name, permissions, expiresAt, issuedAt);
    FirstWhereAppendHit(keys, MatchesSecret(secret, matches), k);
  }
}

=== FILE: entities.dfy ===
/**
 * The persisted records: users, wallets, ledger transactions and API keys,
 * with the enumerations their columns take.
 *
 * Primary keys are uuids in the store; here a row is identified by its
 * position in its table, so `UserId` and `KeyId` are naturals.
 */
module Entities {
  import opened Base

  type UserId = nat
  type KeyId = nat

  /** Money in kobo: the naira amount of a decimal(10,2) column times 100. */
  type Kobo = int

  /** A point in time, in milliseconds since the epoch. */
  type Millis = int

  datatype User = User(googleId: string, email: string, name: string, createdAt: Millis)

  /** A wallet; `balance` defaults to 0 when the row is created. */
  datatype Wallet = Wallet(userId: UserId, walletNumber: string, balance: Kobo, createdAt: Millis)

  datatype TransactionType = Deposit | OutgoingTransfer | IncomingTransfer

  datatype TransactionStatus = Pending | Success | Failed

  /** A ledger row; every column after `status` is nullable. */
  datatype Transaction = Transaction(
    userId: UserId,
    txType: TransactionType,
    amount: Kobo,
    status: TransactionStatus,
    reference: Option<string>,
    recipientWalletNumber: Option<string>,
    description: Option<string>,
    senderWalletNumber: Option<string>,
    paystackEventId: Option<string>,
    createdAt: Millis)

  datatype Permission = ReadPermission | DepositPermission | TransferPermission

  /** The string value each permission has in the enum (and in the `simple-array` column). */
  function PermissionName(p: Permission): string {
    match p
    case ReadPermission => "read"
    case DepositPermission => "deposit"
    case TransferPermission => "transfer"
  }

  /** A one-way (bcrypt) hash of an API key secret. */
  type Hash = string

  /** Longest `keyPrefix` the column holds. */
  const KeyPrefixLength := 8

  /** An issued API key; it stores the hash of the secret, never the secret. */
  datatype ApiKey = ApiKey(
    userId: UserId,
    keyPrefix: Option<string>,
    hashedKey: Hash,
    name: string,
    permissions: seq<Permission>,
    expiresAt: Millis,
    revoked: bool,
    createdAt: Millis)
}

=== FILE: guards.dfy ===
/**
 * The two request guards. A guard either admits the request, assigning
 * `request.user` (an `Ok` carrying that user here), or throws (an `Err`).
 * JWT verification is foreign: `verify(token)` is the decoded payload, or
 * None when the library rejects the token.
 */
module Guards {
  import opened Base
  import opened Entities
  import opened Tables
  import opened Credentials

  datatype JwtPayload = JwtPayload(sub: string, email: string)

  /** What a guard assigns to `request.user`. */
  datatype RequestUser = TokenUser(id: string, email: string) | KeyOwner(userId: UserId)

  const BearerPrefix := "Bearer "
  const InvalidJwt := "Invalid JWT token"
  const InvalidApiKey := "Invalid API key"
  const AuthenticationRequired := "Authentication required"
  const ApiKeyRequired := "API key required"

  /** A header value JavaScript treats as true: present and not empty. */
  predicate Present(header: Option<string>) {
    header.Some? && header.value != ""
  }

  predicate IsBearer(authorization: Option<string>) {
    authorization.Some? && BearerPrefix <= authorization.value
  }

  function PermissionDenied(p: Permission): string {
    "Permission '" + PermissionName(p) + "' required"
  }

  function NotGrantedBy(granted: seq<Permission>): Permission -> bool {
    (p: Permission) => p !in granted
  }

  /** The position of the first required permission the key lacks. */
  function FirstMissing(required: seq<Permission>, granted: seq<Permission>): Option<nat> {
    FirstWhere(required, NotGrantedBy(granted))
  }

  /** The permission loop: the first required permission not granted, or None when all are. */
  method MissingPermission(required: seq<Permission>, granted: seq<Permission>) returns (missing: Option<Permission>)
    ensures missing.None? <==> forall p :: p in required ==> p in granted
    ensures missing.Some? ==> missing.value in required && missing.value !in granted
    ensures missing == (match FirstMissing(required, granted) case None => None case Some(k) => Some(required[k]))
  {
    for i := 0 to |required|
      invariant forall j :: 0 <= j < i ==> required[j] in granted
    {
      var perm := required[i];
      if perm !in granted {
        assert FirstMissing(required, granted) == Some(i);
        return Some(perm);
      }
    }
    missing := None;
  }

  /**
   * The API-key branch once validation has answered: a validation error
   * propagates, no match is Unauthorized, and a match is admitted exactly
   * when every required permission is granted (no requirement admits).
   */
  function KeyDecision(validation: Result<Option<Grant>>, required: Option<seq<Permission>>): (r: Result<RequestUser>)
    ensures validation.Err? ==> r == Err(validation.error)
    ensures validation == Ok(None) ==> r == Err(Unauthorized(InvalidApiKey))
    ensures validation.Ok? && validation.value.Some? ==>
      (r.Ok? <==> required.None? || forall p :: p in required.value ==> p in validation.value.value.permissions)
    ensures r.Ok? ==> validation.Ok? && validation.value.Some? && r.value == KeyOwner(validation.value.value.userId)
    ensures validation.Ok? && validation.value.Some? && r.Err? ==>
      exists p :: p in required.value && p !in validation.value.value.permissions && r.error == Unauthorized(PermissionDenied(p))
  {
    match validation
    case Err(e) => Err(e)
    case Ok(None) => Err(Unauthorized(InvalidApiKey))
    case Ok(Some(grant)) =>
      if required.None? then Ok(KeyOwner(grant.userId))
      else match FirstMissing(required.value, grant.permissions)
        case None => Ok(KeyOwner(grant.userId))
        case Some(k) => Err(Unauthorized(PermissionDenied(required.value[k])))
  }

  /**
   * The combined guard. A "Bearer " authorization header decides alone: the
   * token is the header without its first seven characters, and an invalid
   * token is Unauthorized with no fall-back to the API key. Otherwise a
   * present `x-api-key` header goes through validation and the permission
   * check; with neither, the request is Unauthorized.
   */
  method CombinedAuthGuard(keys: seq<ApiKey>, authorization: Option<string>, apiKeyHeader: Option<string>,
                           required: Option<seq<Permission>>, now: Millis,
                           verify: string -> Option<JwtPayload>, matches: (string, Hash) -> bool)
    returns (r: Result<RequestUser>)
    ensures IsBearer(authorization) ==>
      r == match verify(authorization.value[|BearerPrefix|..])
           case Some(payload) => Ok(TokenUser(payload.sub, payload.email))
           case None => Err(Unauthorized(InvalidJwt))
    ensures !IsBearer(authorization) && Present(apiKeyHeader) ==>
      r == KeyDecision(ValidateOutcome(keys, apiKeyHeader.value, now, matches), required)
    ensures !IsBearer(authorization) && !Present(apiKeyHeader) ==> r == Err(Unauthorized(AuthenticationRequired))
  {
    if IsBearer(authorization) {
      var token := authorization.value[|BearerPrefix|..];
      match verify(token)
      case Some(payload) =>
        return Ok(TokenUser(payload.sub, payload.email));
      case None =>
        return Err(Unauthorized(InvalidJwt));
    } else if Present(apiKeyHeader) {
      r := ApiKeyBranch(keys, apiKeyHeader.value, required, now, matches);
    } else {
      return Err(Unauthorized(AuthenticationRequired));
    }
  }

  /** The API-key guard: a missing `x-api-key` header is Unauthorized, otherwise as the combined guard's API-key branch. */
  method ApiKeyGuard(keys: seq<ApiKey>, apiKeyHeader: Option<string>, required: Option<seq<Permission>>, now: Millis,
                     matches: (string, Hash) -> bool)
    returns (r: Result<RequestUser>)
    ensures !Present(apiKeyHeader) ==> r == Err(Unauthorized(ApiKeyRequired))
    ensures Present(apiKeyHeader) ==> r == KeyDecision(ValidateOutcome(keys, apiKeyHeader.value, now, matches), required)
  {
    if !Present(apiKeyHeader) {
      return Err(Unauthorized(ApiKeyRequired));
    }
    r := ApiKeyBranch(keys, apiKeyHeader.value, required, now, matches);
  }

  /** Validation followed by the permission loop, as both guards write it. */
  method ApiKeyBranch(keys: seq<ApiKey>, apiKey: string, required: Option<seq<Permission>>, now: Millis,
                      matches: (string, Hash) -> bool)
    returns (r: Result<RequestUser>)
    ensures r == KeyDecision(ValidateOutcome(keys, apiKey, now, matches), required)
  {
    var result := ValidateApiKey(keys, apiKey, now, matches);
    if result.Err? {
      return Err(result.error);
    }
    if result.value.None? {
      return Err(Unauthorized(InvalidApiKey));
    }
    var grant := result.value.value;
    if required.Some? {
      var missing := MissingPermission(required.value, grant.permissions);
      if missing.Some? {
        return Err(Unauthorized(PermissionDenied(missing.value)));
      }
    }
    r := Ok(KeyOwner(grant.userId));
  }
}

=== FILE: ledger.dfy ===
/**
 * The wallet service: deposit initiation, peer transfer, settlement of
 * gateway notifications, and the read projections over wallets and
 * transactions.
 *
 * The state-changing operations are methods on the shared `Store`.
 * `Transfer` and `HandleWebhook` are proved equal to functions on `Books`
 * (the wallet and transaction tables), and the ledger's properties are
 * lemmas about those functions; `Deposit` states its new transaction table
 * directly.
 */
module Ledger {
  import opened Base
  import opened Entities
  import opened Tables

  /** The two tables the wallet service writes. */
  datatype Books = Books(wallets: seq<Wallet>, transactions: seq<Transaction>)

  function BooksOf(db: Store): Books
    reads db
  {
    Books(db.wallets, db.transactions)
  }

  // ---------------------------------------------------------------------
  // Deposit initiation

  const CallbackUrl := "http://localhost:3001/wallet/deposit/callback"
  const FallbackEmail := "test@example.com"
  const PaymentFailed := "Failed to initialize payment: "
  const DuplicateReference := "duplicate key value violates unique constraint on reference"

  /** The payment-initialisation request sent to the gateway. */
  datatype GatewayRequest = GatewayRequest(amountKobo: Kobo, email: string, reference: string, callbackUrl: string)

  /** What the gateway answers: a checkout URL, or an error with its message. */
  datatype GatewayReply = Authorized(authorizationUrl: string) | GatewayError(message: string)

  datatype DepositResponse = DepositResponse(reference: string, authorizationUrl: string)

  /** The payer email: the caller's, unless it is absent or empty. */
  function PayerEmail(userEmail: Option<string>): (email: string)
    ensures userEmail.Some? && userEmail.value != "" ==> email == userEmail.value
    ensures !(userEmail.Some? && userEmail.value != "") ==> email == FallbackEmail
    ensures email != ""
  {
    if userEmail.Some? && userEmail.value != "" then userEmail.value else FallbackEmail
  }

  /** The row a deposit writes before it calls the gateway. */
  function PendingDeposit(userId: UserId, amount: Kobo, reference: string, now: Millis): Transaction {
    Transaction(userId, TransactionType.Deposit, amount, Pending, Some(reference), None, None, None, None, now)
  }

  /**
   * Initiates a deposit. The generated reference, the clock and the
   * gateway's reply are parameters; `sent` is the request the gateway
   * receives (None when the call is never made). The gateway's `amount * 100`
   * turns naira into kobo, the unit `amount` already has here.
   */
  method Deposit(db: Store, userId: UserId, amount: Kobo, userEmail: Option<string>,
                 reference: string, now: Millis, reply: GatewayReply)
    returns (r: Result<DepositResponse>, sent: Option<GatewayRequest>)
    requires db.Valid()
    modifies db
    ensures db.Valid()
    ensures db.users == old(db.users) && db.wallets == old(db.wallets) && db.apiKeys == old(db.apiKeys)
    // no wallet: nothing is written and the gateway is not called
    ensures WalletOf(old(db.wallets), userId).None? ==>
      && r == Err(BadRequest(PaymentFailed + "Wallet not found"))
      && sent == None && db.transactions == old(db.transactions)
    // the reference is taken: the unique index refuses the row, and again in the catch block
    ensures WalletOf(old(db.wallets), userId).Some? && TransactionWithReference(old(db.transactions), reference).Some? ==>
      && r == Err(StoreRejected(DuplicateReference))
      && sent == None && db.transactions == old(db.transactions)
    // otherwise one deposit row is appended, pending if the gateway answered and failed if not
    ensures WalletOf(old(db.wallets), userId).Some? && TransactionWithReference(old(db.transactions), reference).None? ==>
      && sent == Some(GatewayRequest(amount, PayerEmail(userEmail), reference, CallbackUrl))
      && db.transactions == old(db.transactions) +
           [PendingDeposit(userId, amount, reference, now).(status := if reply.Authorized? then Pending else Failed)]
      && r == (if reply.Authorized? then Ok(DepositResponse(reference, reply.authorizationUrl))
               else Err(BadRequest(PaymentFailed + reply.message)))
    // a failed deposit never leaves a pending row behind
    ensures r.Err? ==> forall i :: |old(db.transactions)| <= i < |db.transactions| ==> db.transactions[i].status == Failed
  {
    sent := None;
    var wallet := WalletOf(db.wallets, userId);
    if wallet.None? {
      r := Err(BadRequest(PaymentFailed + "Wallet not found"));
      return;
    }
    var transaction := PendingDeposit(userId, amount, reference, now);
    if TransactionWithReference(db.transactions, reference).Some? {
      r := Err(StoreRejected(DuplicateReference));
      return;
    }
    db.transactions := db.transactions + [transaction];
    var last := |db.transactions| - 1;
    sent := Some(GatewayRequest(amount, PayerEmail(userEmail), reference, CallbackUrl));
    match reply
    case Authorized(url) =>
      r := Ok(DepositResponse(reference, url));
    case GatewayError(message) =>
      transaction := transaction.(status := Failed);
      db.transactions := db.transactions[last := transaction];
      r := Err(BadRequest(PaymentFailed + message));
  }

  // ---------------------------------------------------------------------
  // Peer transfer

  datatype TransferResponse = TransferResponse(status: string, message: string)

  const InsufficientBalance := "Insufficient balance"
  const RecipientNotFound := "Recipient wallet not found"

  /** The sender's row of a transfer. */
  function OutgoingRow(userId: UserId, amount: Kobo, walletNumber: string, now: Millis): Transaction {
    Transaction(userId, OutgoingTransfer, amount, Success, None, Some(walletNumber), None, None, None, now)
  }

  /** The recipient's row of a transfer. */
  function IncomingRow(userId: UserId, amount: Kobo, now: Millis): Transaction {
    Transaction(userId, IncomingTransfer, amount, Success, None, None, None, None, None, now)
  }

  /** Two wallet tables that differ at most in balances. */
  predicate SameWallets(ws: seq<Wallet>, ws': seq<Wallet>) {
    && |ws'| == |ws|
    && forall k :: 0 <= k < |ws| ==> ws'[k] == ws[k].(balance := ws'[k].balance)
  }

  /**
   * The effect of a transfer of `amount` from `userId`'s wallet to the wallet
   * numbered `walletNumber`. The only guard is `balance < amount`. Sender and
   * recipient are loaded as two copies, so when they are the same wallet the
   * recipient's save overwrites the debit and the wallet gains `amount`.
   */
  function TransferSpec(b: Books, userId: UserId, walletNumber: string, amount: Kobo, now: Millis)
    : (out: (Books, Result<TransferResponse>))
    ensures out.1.Err? ==> out.0 == b
    ensures SameWallets(b.wallets, out.0.wallets)
    ensures out.1.Ok? ==> |out.0.transactions| == |b.transactions| + 2 && out.0.transactions[..|b.transactions|] == b.transactions
  {
    match WalletOf(b.wallets, userId)
    case None => (b, Err(BadRequest(InsufficientBalance)))
    case Some(s) =>
      if b.wallets[s].balance < amount then (b, Err(BadRequest(InsufficientBalance)))
      else match WalletNumbered(b.wallets, walletNumber)
        case None => (b, Err(BadRequest(RecipientNotFound)))
        case Some(t) =>
          var rows := [OutgoingRow(userId, amount, walletNumber, now), IncomingRow(b.wallets[t].userId, amount, now)];
          (Books(MoveBalance(b.wallets, s, t, amount), b.transactions + rows), Ok(TransferResponse("success", "Transfer completed")))
  }

  /** Debit wallet `s` and credit wallet `t`; a wallet that is both only gains. */
  function MoveBalance(ws: seq<Wallet>, s: nat, t: nat, amount: Kobo): (ws': seq<Wallet>)
    requires s < |ws| && t < |ws|
    ensures SameWallets(ws, ws')
  {
    if s == t then ws[s := ws[s].(balance := ws[s].balance + amount)]
    else ws[s := ws[s].(balance := ws[s].balance - amount)][t := ws[t].(balance := ws[t].balance + amount)]
  }

  /** Transfer, as the service performs it on the store. */
  method Transfer(db: Store, userId: UserId, walletNumber: string, amount: Kobo, now: Millis)
    returns (r: Result<TransferResponse>)
    requires db.Valid()
    modifies db
    ensures db.Valid()
    ensures db.users == old(db.users) && db.apiKeys == old(db.apiKeys)
    ensures (BooksOf(db), r) == TransferSpec(old(BooksOf(db)), userId, walletNumber, amount, now)
  {
    var s := WalletOf(db.wallets, userId);
    if s.None? || db.wallets[s.value].balance < amount {
      return Err(BadRequest(InsufficientBalance));
    }
    var senderWallet := db.wallets[s.value];
    var t := WalletNumbered(db.wallets, walletNumber);
    if t.None? {
      return Err(BadRequest(RecipientNotFound));
    }
    var recipientWallet := db.wallets[t.value];
    ghost var before := BooksOf(db);
    // the atomic block: two wallet saves, then two rows
    senderWallet := senderWallet.(balance := senderWallet.balance - amount);
    db.wallets := db.wallets[s.value := senderWallet];
    recipientWallet := recipientWallet.(balance := recipientWallet.balance + amount);
    db.wallets := db.wallets[t.value := recipientWallet];
    assert db.wallets == MoveBalance(before.wallets, s.value, t.value, amount);
    var senderRow, recipientRow := OutgoingRow(userId, amount, walletNumber, now), IncomingRow(recipientWallet.userId, amount, now);
    db.transactions := db.transactions + [senderRow];
    db.transactions := db.transactions + [recipientRow];
    assert db.transactions == before.transactions + [senderRow, recipientRow];
    r := Ok(TransferResponse("success", "Transfer completed"));
    assert TransferSpec(before, userId, walletNumber, amount, now) == (BooksOf(db), r);
    BalancesKeepWalletConstraints(before.wallets, db.wallets, |db.users|);
    UnreferencedRowsKeepReferencesUnique(before.transactions, [senderRow, recipientRow]);
  }

  /** Changing balances only keeps every wallet constraint of the schema. */
  lemma BalancesKeepWalletConstraints(ws: seq<Wallet>, ws': seq<Wallet>, userCount: nat)
    requires SameWallets(ws, ws')
    requires UniqueWalletNumbers(ws) && OneWalletPerUser(ws) && WalletOwnersExist(ws, userCount)
    ensures UniqueWalletNumbers(ws') && OneWalletPerUser(ws') && WalletOwnersExist(ws', userCount)
  {
  }

  /** Rows without a reference never clash on the unique reference index. */
  lemma UnreferencedRowsKeepReferencesUnique(ts: seq<Transaction>, rows: seq<Transaction>)
    requires UniqueReferences(ts)
    requires forall k :: 0 <= k < |rows| ==> rows[k].reference.None?
    ensures UniqueReferences(ts + rows)
  {
  }

  /** A missing sender wallet, a short balance or an unknown recipient refuses the transfer and changes nothing. */
  lemma TransferRefusals(b: Books, userId: UserId, walletNumber: string, amount: Kobo, now: Millis)
    requires OneWalletPerUser(b.wallets)
    ensures (forall i :: 0 <= i < |b.wallets| ==> b.wallets[i].userId != userId) ==>
      TransferSpec(b, userId, walletNumber, amount, now) == (b, Err(BadRequest(InsufficientBalance)))
    ensures forall i :: 0 <= i < |b.wallets| && b.wallets[i].userId == userId && b.wallets[i].balance < amount ==>
      TransferSpec(b, userId, walletNumber, amount, now) == (b, Err(BadRequest(InsufficientBalance)))
    // an unknown recipient number fails the transfer and changes nothing...
    ensures (forall j :: 0 <= j < |b.wallets| ==> b.wallets[j].walletNumber != walletNumber) ==>
      TransferSpec(b, userId, walletNumber, amount, now).0 == b && TransferSpec(b, userId, walletNumber, amount, now).1.Err?
    // ... and, for a sender that passes the balance check, the error names the recipient
    ensures (forall j :: 0 <= j < |b.wallets| ==> b.wallets[j].walletNumber != walletNumber) ==>
      forall i :: 0 <= i < |b.wallets| && b.wallets[i].userId == userId && b.wallets[i].balance >= amount ==>
        TransferSpec(b, userId, walletNumber, amount, now) == (b, Err(BadRequest(RecipientNotFound)))
  {
  }

  /**
   * An accepted transfer between sender wallet `s` and recipient wallet `t`:
   * what each balance becomes, that no other wallet moves, and the two
   * success rows appended.
   */
  lemma TransferMovesMoney(b: Books, userId: UserId, walletNumber: string, amount: Kobo, now: Millis, s: nat, t: nat)
    requires OneWalletPerUser(b.wallets) && UniqueWalletNumbers(b.wallets)
    requires s < |b.wallets| && b.wallets[s].userId == userId && b.wallets[s].balance >= amount
    requires t < |b.wallets| && b.wallets[t].walletNumber == walletNumber
    ensures TransferSpec(b, userId, walletNumber, amount, now).1 == Ok(TransferResponse("success", "Transfer completed"))
    ensures var ws := TransferSpec(b, userId, walletNumber, amount, now).0.wallets;
      && (s != t ==> ws[s].balance == b.wallets[s].balance - amount && ws[t].balance == b.wallets[t].balance + amount)
      && (s == t ==> ws[s].balance == b.wallets[s].balance + amount)
      && forall k :: 0 <= k < |ws| && k != s && k != t ==> ws[k] == b.wallets[k]
    ensures TransferSpec(b, userId, walletNumber, amount, now).0.transactions ==
      b.transactions + [OutgoingRow(userId, amount, walletNumber, now), IncomingRow(b.wallets[t].userId, amount, now)]
  {
    assert WalletOf(b.wallets, userId) == Some(s);
    assert WalletNumbered(b.wallets, walletNumber) == Some(t);
  }

  /** Debiting one wallet and crediting another by the same amount keeps the total. */
  lemma {:induction false} DebitCreditTotal(ws: seq<Wallet>, s: nat, t: nat, amount: Kobo)
    requires s < |ws| && t < |ws| && s != t
    ensures TotalBalance(ws[s := ws[s].(balance := ws[s].balance - amount)][t := ws[t].(balance := ws[t].balance + amount)])
         == TotalBalance(ws)
  {
    var debit, credit := ws[s].(balance := ws[s].balance - amount), ws[t].(balance := ws[t].balance + amount);
    TotalBalanceUpdate(ws, s, debit);
    TotalBalanceUpdate(ws[s := debit], t, credit);
  }

  /** Moving between two wallets keeps the total; a wallet paying itself adds `amount` to it. */
  lemma {:induction false} MoveBalanceTotal(ws: seq<Wallet>, s: nat, t: nat, amount: Kobo)
    requires s < |ws| && t < |ws|
    ensures TotalBalance(MoveBalance(ws, s, t, amount)) == TotalBalance(ws) + (if s == t then amount else 0)
  {
    if s == t {
      TotalBalanceUpdate(ws, s, ws[s].(balance := ws[s].balance + amount));
    } else {
      DebitCreditTotal(ws, s, t, amount);
    }
  }

  /** Between two distinct wallets an accepted transfer conserves the total balance. */
  lemma TransferConservesTotal(b: Books, userId: UserId, walletNumber: string, amount: Kobo, now: Millis)
    requires TransferSpec(b, userId, walletNumber, amount, now).1.Ok?
    requires WalletOf(b.wallets, userId) != WalletNumbered(b.wallets, walletNumber)
    ensures TotalBalance(TransferSpec(b, userId, walletNumber, amount, now).0.wallets) == TotalBalance(b.wallets)
  {
    var s, t := WalletOf(b.wallets, userId).value, WalletNumbered(b.wallets, walletNumber).value;
    assert TransferSpec(b, userId, walletNumber, amount, now).0.wallets == MoveBalance(b.wallets, s, t, amount);
    MoveBalanceTotal(b.wallets, s, t, amount);
  }

  /** A transfer to one's own wallet number is accepted and raises the total by `amount`. */
  lemma SelfTransferAddsAmount(b: Books, userId: UserId, walletNumber: string, amount: Kobo, now: Millis)
    requires TransferSpec(b, userId, walletNumber, amount, now).1.Ok?
    requires WalletOf(b.wallets, userId) == WalletNumbered(b.wallets, walletNumber)
    ensures TotalBalance(TransferSpec(b, userId, walletNumber, amount, now).0.wallets) == TotalBalance(b.wallets) + amount
  {
    var s := WalletOf(b.wallets, userId).value;
    assert TransferSpec(b, userId, walletNumber, amount, now).0.wallets == MoveBalance(b.wallets, s, s, amount);
    MoveBalanceTotal(b.wallets, s, s, amount);
  }

  /** With no positive-amount check, a negative amount is accepted and lowers the recipient's balance. */
  lemma NegativeTransferDebitsRecipient(b: Books, userId: UserId, walletNumber: string, amount: Kobo, now: Millis)
    requires amount < 0
    requires WalletOf(b.wallets, userId).Some? && WalletNumbered(b.wallets, walletNumber).Some?
    requires WalletOf(b.wallets, userId) != WalletNumbered(b.wallets, walletNumber)
    requires b.wallets[WalletOf(b.wallets, userId).value].balance >= 0
    ensures TransferSpec(b, userId, walletNumber, amount, now).1.Ok?
    ensures var t := WalletNumbered(b.wallets, walletNumber).value;
      TransferSpec(b, userId, walletNumber, amount, now).0.wallets[t].balance < b.wallets[t].balance
  {
  }

  // ---------------------------------------------------------------------
  // Settlement of a gateway notification

  /**
   * The effect of a settlement notification for `reference` reporting
   * `status`. Only a pending row moves: to success (crediting its owner's
   * wallet, when there is one) on "success", to failed otherwise. The
   * reported amount and the event id play no part.
   */
  function SettleSpec(b: Books, reference: string, status: string): (b': Books)
    ensures SameWallets(b.wallets, b'.wallets)
    ensures |b'.transactions| == |b.transactions|
    // only the status column of a row can change, and only from pending to a terminal state
    ensures forall k :: 0 <= k < |b.transactions| ==>
      b'.transactions[k] == b.transactions[k].(status := b'.transactions[k].status)
    ensures forall k :: 0 <= k < |b.transactions| && b'.transactions[k] != b.transactions[k] ==>
      b.transactions[k].status == Pending && b'.transactions[k].status != Pending
  {
    match TransactionWithReference(b.transactions, reference)
    case None => b
    case Some(i) =>
      var t := b.transactions[i];
      if t.status != Pending then b
      else if status == "success" then
        var ts := b.transactions[i := t.(status := Success)];
        match WalletOf(b.wallets, t.userId)
        case None => Books(b.wallets, ts)
        case Some(j) => Books(b.wallets[j := b.wallets[j].(balance := b.wallets[j].balance + t.amount)], ts)
      else Books(b.wallets, b.transactions[i := t.(status := Failed)])
  }

  /** The webhook handler, as the service performs it on the store. */
  method HandleWebhook(db: Store, reference: string, status: string)
    requires db.Valid()
    modifies db
    ensures db.Valid()
    ensures db.users == old(db.users) && db.apiKeys == old(db.apiKeys)
    ensures BooksOf(db) == SettleSpec(old(BooksOf(db)), reference, status)
  {
    var found := TransactionWithReference(db.transactions, reference);
    if found.None? || db.transactions[found.value].status != Pending {
      return;
    }
    var i := found.value;
    var transaction := db.transactions[i];
    if status == "success" {
      transaction := transaction.(status := Success);
      db.transactions := db.transactions[i := transaction];
      var w := WalletOf(db.wallets, transaction.userId);
      if w.Some? {
        var wallet := db.wallets[w.value];
        wallet := wallet.(balance := wallet.balance + transaction.amount);
        db.wallets := db.wallets[w.value := wallet];
      }
    } else {
      transaction := transaction.(status := Failed);
      db.transactions := db.transactions[i := transaction];
    }
  }

  /** A notification for an unknown reference, or for a row already settled, changes nothing. */
  lemma SettleIgnoresUnknownOrSettled(b: Books, reference: string, status: string)
    requires UniqueReferences(b.transactions)
    ensures (forall i :: 0 <= i < |b.transactions| ==> b.transactions[i].reference != Some(reference)) ==>
      SettleSpec(b, reference, status) == b
    ensures forall i :: (0 <= i < |b.transactions| && b.transactions[i].reference == Some(reference) &&
                         b.transactions[i].status != Pending) ==> SettleSpec(b, reference, status) == b
  {
    forall i | 0 <= i < |b.transactions| && b.transactions[i].reference == Some(reference) &&
      b.transactions[i].status != Pending
      ensures SettleSpec(b, reference, status) == b
    {
      assert TransactionWithReference(b.transactions, reference) == Some(i);
    }
  }

  /**
   * "success" on the pending row `i` marks it success and credits its owner's
   * wallet by exactly the row's amount (the total rises by that amount); with
   * no wallet the row is still marked and nothing is credited.
   */
  lemma SettleSuccessCredits(b: Books, reference: string, i: nat)
    requires UniqueReferences(b.transactions) && OneWalletPerUser(b.wallets)
    requires i < |b.transactions| && b.transactions[i].reference == Some(reference) && b.transactions[i].status == Pending
    ensures var b' := SettleSpec(b, reference, "success");
      && b'.transactions == b.transactions[i := b.transactions[i].(status := Success)]
      && (forall j :: 0 <= j < |b.wallets| && b.wallets[j].userId == b.transactions[i].userId ==>
            b'.wallets == b.wallets[j := b.wallets[j].(balance := b.wallets[j].balance + b.transactions[i].amount)]
            && TotalBalance(b'.wallets) == TotalBalance(b.wallets) + b.transactions[i].amount)
      && ((forall j :: 0 <= j < |b.wallets| ==> b.wallets[j].userId != b.transactions[i].userId) ==> b'.wallets == b.wallets)
  {
    assert TransactionWithReference(b.transactions, reference) == Some(i);
    var t := b.transactions[i];
    match WalletOf(b.wallets, t.userId)
    case None =>
    case Some(j) =>
      TotalBalanceUpdate(b.wallets, j, b.wallets[j].(balance := b.wallets[j].balance + t.amount));
  }

  /** Any status other than "success" on a pending row marks it failed and moves no money. */
  lemma SettleFailureMovesNoMoney(b: Books, reference: string, status: string, i: nat)
    requires UniqueReferences(b.transactions) && status != "success"
    requires i < |b.transactions| && b.transactions[i].reference == Some(reference) && b.transactions[i].status == Pending
    ensures SettleSpec(b, reference, status) == Books(b.wallets, b.transactions[i := b.transactions[i].(status := Failed)])
  {
    assert TransactionWithReference(b.transactions, reference) == Some(i);
  }

  /**
   * A second notification for the same reference, whatever it reports, is a
   * no-op: redelivering an event credits at most once.
   */
  lemma {:induction false} SettleIdempotent(b: Books, reference: string, status: string, status': string)
    ensures SettleSpec(SettleSpec(b, reference, status), reference, status') == SettleSpec(b, reference, status)
  {
    var b' := SettleSpec(b, reference, status);
    match TransactionWithReference(b.transactions, reference)
    case None =>
    case Some(i) =>
      var t := b.transactions[i];
      if t.status == Pending {
        var p := (t: Transaction) => t.reference == Some(reference);
        FirstWhereUpdate(b.transactions, p, i, b'.transactions[i]);
        assert b'.transactions == b.transactions[i := b'.transactions[i]];
        assert TransactionWithReference(b'.transactions, reference) == Some(i);
      }
  }

  /**
   * A deposit row followed by its "success" notification: the row becomes
   * success and the depositor's wallet gains exactly the deposited amount.
   */
  lemma DepositThenSettle(b: Books, userId: UserId, amount: Kobo, reference: string, now: Millis, j: nat)
    requires j < |b.wallets| && b.wallets[j].userId == userId && OneWalletPerUser(b.wallets)
    requires TransactionWithReference(b.transactions, reference).None?
    ensures var row := PendingDeposit(userId, amount, reference, now);
      SettleSpec(Books(b.wallets, b.transactions + [row]), reference, "success") ==
      Books(b.wallets[j := b.wallets[j].(balance := b.wallets[j].balance + amount)], b.transactions + [row.(status := Success)])
  {
    var row := PendingDeposit(userId, amount, reference, now);
    FirstWhereAppendHit(b.transactions, (t: Transaction) => t.reference == Some(reference), row);
    assert TransactionWithReference(b.transactions + [row], reference) == Some(|b.transactions|);
    assert WalletOf(b.wallets, userId) == Some(j);
    assert (b.transactions + [row])[|b.transactions| := row.(status := Success)] == b.transactions + [row.(status := Success)];
  }

  // ---------------------------------------------------------------------
  // Read projections

  /** The caller's balance, or 0 when the caller has no wallet. */
  function GetBalance(ws: seq<Wallet>, userId: UserId): (balance: Kobo)
    ensures (exists i :: 0 <= i < |ws| && ws[i].userId == userId) ==>
      exists i :: 0 <= i < |ws| && ws[i].userId == userId && balance == ws[i].balance
    ensures (forall i :: 0 <= i < |ws| ==> ws[i].userId != userId) ==> balance == 0
    // with the one-wallet-per-user constraint, it is the balance of the caller's wallet
    ensures OneWalletPerUser(ws) ==> forall i :: 0 <= i < |ws| && ws[i].userId == userId ==> balance == ws[i].balance
  {
    match WalletOf(ws, userId)
    case None => 0
    case Some(i) => ws[i].balance
  }

  datatype DepositStatus = DepositStatus(reference: string, status: TransactionStatus, amount: Kobo)

  /** The status and amount of the row carrying `reference`; an error when there is none. */
  function GetDepositStatus(ts: seq<Transaction>, reference: string): (r: Result<DepositStatus>)
    ensures r.Err? <==> forall i :: 0 <= i < |ts| ==> ts[i].reference != Some(reference)
    ensures r.Err? ==> r.error == BadRequest("Transaction not found")
    ensures r.Ok? ==>
      exists i :: 0 <= i < |ts| && ts[i].reference == Some(reference) && r.value == DepositStatus(reference, ts[i].status, ts[i].amount)
    // with the unique reference index, it is the status and amount of the one row carrying `reference`
    ensures UniqueReferences(ts) ==> forall i :: 0 <= i < |ts| && ts[i].reference == Some(reference) ==>
      r == Ok(DepositStatus(reference, ts[i].status, ts[i].amount))
  {
    match TransactionWithReference(ts, reference)
    case None => Err(BadRequest("Transaction not found"))
    case Some(i) => Ok(DepositStatus(reference, ts[i].status, ts[i].amount))
  }

  datatype TransactionView = TransactionView(txType: TransactionType, amount: Kobo, status: TransactionStatus)

  function ViewOf(t: Transaction): TransactionView {
    TransactionView(t.txType, t.amount, t.status)
  }

  /**
   * The positions of the caller's rows, in insertion order: every position
   * listed holds one of the caller's rows, positions strictly increase, and
   * none of the caller's rows is missing. These three facts determine the
   * sequence.
   */
  function OwnedRows(ts: seq<Transaction>, userId: UserId): (idx: seq<nat>)
    ensures forall k :: 0 <= k < |idx| ==> idx[k] < |ts| && ts[idx[k]].userId == userId
    ensures forall k, l :: 0 <= k < l < |idx| ==> idx[k] < idx[l]
    ensures forall i :: 0 <= i < |ts| && ts[i].userId == userId ==> i in idx
    decreases |ts|
  {
    if |ts| == 0 then []
    else
      var n := |ts| - 1;
      OwnedRows(ts[..n], userId) + (if ts[n].userId == userId then [n] else [])
  }

  /**
   * The type, amount and status of every row the caller owns, in insertion
   * order: one view per owned row, the k-th view from the k-th owned row.
   */
  function GetTransactions(ts: seq<Transaction>, userId: UserId): (views: seq<TransactionView>)
    ensures |views| == |OwnedRows(ts, userId)| <= |ts|
    ensures forall k :: 0 <= k < |views| ==> views[k] == ViewOf(ts[OwnedRows(ts, userId)[k]])
    ensures forall v :: v in views ==> exists i :: 0 <= i < |ts| && ts[i].userId == userId && ViewOf(ts[i]) == v
    ensures forall i :: 0 <= i < |ts| && ts[i].userId == userId ==> ViewOf(ts[i]) in views
    decreases |ts|
  {
    if |ts| == 0 then []
    else
      var n := |ts| - 1;
      var earlier := GetTransactions(ts[..n], userId);
      assert forall i :: 0 <= i < n ==> ts[..n][i] == ts[i];
      earlier + (if ts[n].userId == userId then [ViewOf(ts[n])] else [])
  }
}

=== FILE: provisioning.dfy ===
/**
 * User provisioning at sign-in: find the user by Google id, or create the
 * user and try to give them a wallet. The random wallet-number candidates
 * are a parameter: `draw(k)` is the candidate of the (k+1)-th attempt.
 */
module Provisioning {
  import opened Base
  import opened Entities
  import opened Tables

  const MaxAttempts := 10
  const NumbersExhausted := "Failed to generate unique wallet number after 10 attempts"
  const DuplicateEmail := "duplicate key value violates unique constraint on email"

  /** Some wallet already holds the number. */
  predicate NumberInUse(ws: seq<Wallet>, walletNumber: string) {
    WalletNumbered(ws, walletNumber).Some?
  }

  /**
   * The retry loop: draws candidates until one is not in use, checking at
   * most ten of them; the eleventh draw is never checked and raises.
   */
  method GenerateWalletNumber(ws: seq<Wallet>, draw: nat -> string) returns (r: Result<string>)
    ensures r.Ok? ==> !NumberInUse(ws, r.value)
    ensures r.Ok? ==> exists k :: 0 <= k < MaxAttempts && r.value == draw(k) &&
                                  forall j :: 0 <= j < k ==> NumberInUse(ws, draw(j))
    ensures r.Err? <==> forall k :: 0 <= k < MaxAttempts ==> NumberInUse(ws, draw(k))
    ensures r.Err? ==> r.error == Internal(NumbersExhausted)
  {
    var attempts: nat := 0;
    var walletNumber: string;
    while true
      invariant attempts <= MaxAttempts
      invariant forall k :: 0 <= k < attempts ==> NumberInUse(ws, draw(k))
      decreases MaxAttempts - attempts
    {
      walletNumber := draw(attempts);
      attempts := attempts + 1;
      if attempts > MaxAttempts {
        return Err(Internal(NumbersExhausted));
      }
      if !NumberInUse(ws, walletNumber) {
        break;
      }
    }
    r := Ok(walletNumber);
  }

  /**
   * Returns the user with `googleId`, creating it when there is none. A new
   * user gets a wallet with balance 0 unless no unused number turns up; that
   * failure is swallowed and the user is still returned.
   */
  method FindOrCreateUser(db: Store, googleId: string, email: string, name: string, now: Millis, draw: nat -> string)
    returns (r: Result<UserId>)
    requires db.Valid()
    modifies db
    ensures db.Valid()
    ensures db.transactions == old(db.transactions) && db.apiKeys == old(db.apiKeys)
    // a known Google id: that user, and nothing is created
    ensures UserWithGoogleId(old(db.users), googleId).Some? ==>
      && r == Ok(UserWithGoogleId(old(db.users), googleId).value)
      && db.users == old(db.users) && db.wallets == old(db.wallets)
    // a new Google id whose email is taken: the unique index refuses the user
    ensures UserWithGoogleId(old(db.users), googleId).None? && UserWithEmail(old(db.users), email).Some? ==>
      && r == Err(StoreRejected(DuplicateEmail))
      && db.users == old(db.users) && db.wallets == old(db.wallets)
    // otherwise exactly one user is created and returned
    ensures UserWithGoogleId(old(db.users), googleId).None? && UserWithEmail(old(db.users), email).None? ==>
      && r == Ok(|old(db.users)|)
      && db.users == old(db.users) + [User(googleId, email, name, now)]
    // ... with a wallet, unless all ten candidates were taken
    ensures UserWithGoogleId(old(db.users), googleId).None? && UserWithEmail(old(db.users), email).None? ==>
      && (db.wallets == old(db.wallets) <==> forall k :: 0 <= k < MaxAttempts ==> NumberInUse(old(db.wallets), draw(k)))
      && (db.wallets != old(db.wallets) ==>
            && |db.wallets| == |old(db.wallets)| + 1 && db.wallets[..|old(db.wallets)|] == old(db.wallets)
            && var wallet := db.wallets[|old(db.wallets)|];
               wallet.userId == |old(db.users)| && wallet.balance == 0 && wallet.createdAt == now
               && !NumberInUse(old(db.wallets), wallet.walletNumber))
  {
    var existing := UserWithGoogleId(db.users, googleId);
    if existing.Some? {
      return Ok(existing.value);
    }
    if UserWithEmail(db.users, email).Some? {
      return Err(StoreRejected(DuplicateEmail));
    }
    db.users := db.users + [User(googleId, email, name, now)];
    var userId := |db.users| - 1;
    var walletNumber := GenerateWalletNumber(db.wallets, draw);
    if walletNumber.Ok? {
      db.wallets := db.wallets + [Wallet(userId, walletNumber.value, 0, now)];
    }
    r := Ok(userId);
  }
}

=== FILE: sweeps.dfy ===
/**
 * The scheduler's two maintenance sweeps, each a single bulk UPDATE
 * parameterised by the instant `now` at which it runs.
 */
module Sweeps {
  import opened Base
  import opened Entities
  import opened Tables
  import opened Credentials

  const StaleAfterMs := 24 * 60 * 60 * 1000
  const TimeoutDescription := "Transaction timed out after 24 hours"

  // ---------------------------------------------------------------------
  // Pending transactions

  /** A row the hourly sweep times out: still pending and created before `now` minus 24 hours. */
  predicate IsStale(t: Transaction, now: Millis) {
    t.status == Pending && t.createdAt < now - StaleAfterMs
  }

  /** The transaction table after the hourly sweep. */
  function SweepPending(ts: seq<Transaction>, now: Millis): (swept: seq<Transaction>)
    ensures |swept| == |ts|
    // only `status` and `description` can change, and only on stale rows
    ensures forall i :: 0 <= i < |ts| ==>
      swept[i] == ts[i].(status := swept[i].status, description := swept[i].description)
    ensures forall i :: 0 <= i < |ts| && !IsStale(ts[i], now) ==> swept[i] == ts[i]
    ensures forall i :: 0 <= i < |ts| && IsStale(ts[i], now) ==>
      swept[i].status == Failed && swept[i].description == Some(TimeoutDescription)
  {
    seq(|ts|, i requires 0 <= i < |ts| =>
      if IsStale(ts[i], now) then ts[i].(status := Failed, description := Some(TimeoutDescription)) else ts[i])
  }

  /** No stale row survives the sweep. */
  lemma SweepPendingLeavesNoStaleRow(ts: seq<Transaction>, now: Millis)
    ensures forall i :: 0 <= i < |ts| ==> !IsStale(SweepPending(ts, now)[i], now)
  {
  }

  /** Running the hourly sweep twice at the same instant is the same as running it once. */
  lemma SweepPendingIdempotent(ts: seq<Transaction>, now: Millis)
    ensures SweepPending(SweepPending(ts, now), now) == SweepPending(ts, now)
  {
    var once := SweepPending(ts, now);
    var twice := SweepPending(once, now);
    forall i | 0 <= i < |ts|
      ensures twice[i] == once[i]
    {
      assert !IsStale(once[i], now);
    }
  }

  /** The hourly sweep on the store: transaction rows only, never a balance. */
  method TimeoutPendingTransactions(db: Store, now: Millis)
    requires db.Valid()
    modifies db
    ensures db.Valid()
    ensures db.transactions == SweepPending(old(db.transactions), now)
    ensures db.users == old(db.users) && db.wallets == old(db.wallets) && db.apiKeys == old(db.apiKeys)
  {
    db.transactions := SweepPending(db.transactions, now);
  }

  // ---------------------------------------------------------------------
  // Expired API keys

  /** A key the daily sweep revokes: not yet revoked and expired before `now`. */
  predicate IsLapsed(k: ApiKey, now: Millis) {
    !k.revoked && k.expiresAt < now
  }

  /** The key table after the daily sweep. */
  function SweepExpiredKeys(ks: seq<ApiKey>, now: Millis): (swept: seq<ApiKey>)
    ensures |swept| == |ks|
    ensures forall i :: 0 <= i < |ks| && IsLapsed(ks[i], now) ==> swept[i] == ks[i].(revoked := true)
    ensures forall i :: 0 <= i < |ks| && !IsLapsed(ks[i], now) ==> swept[i] == ks[i]
  {
    seq(|ks|, i requires 0 <= i < |ks| => if IsLapsed(ks[i], now) then ks[i].(revoked := true) else ks[i])
  }

  /** Running the daily sweep twice at the same instant is the same as running it once. */
  lemma SweepExpiredKeysIdempotent(ks: seq<ApiKey>, now: Millis)
    ensures SweepExpiredKeys(SweepExpiredKeys(ks, now), now) == SweepExpiredKeys(ks, now)
  {
    var once := SweepExpiredKeys(ks, now);
    var twice := SweepExpiredKeys(once, now);
    forall i | 0 <= i < |ks|
      ensures twice[i] == once[i]
    {
      assert !IsLapsed(once[i], now);
    }
  }

  /**
   * After the daily sweep at `now`, validation at the same instant never
   * reports an expired key: every expired key it could have matched is revoked.
   */
  lemma ValidateAfterSweepNeverExpired(ks: seq<ApiKey>, secret: string, now: Millis, matches: (string, Hash) -> bool)
    ensures ValidateOutcome(SweepExpiredKeys(ks, now), secret, now, matches).Ok?
  {
    var swept := SweepExpiredKeys(ks, now);
    match MatchingKey(swept, secret, matches)
    case None =>
    case Some(i) =>
      assert IsMatch(swept[i], secret, matches);
      assert !IsLapsed(ks[i], now);
  }

  /** The daily sweep on the store: the `revoked` flag of lapsed keys only. */
  method CleanupExpiredApiKeys(db: Store, now: Millis)
    requires db.Valid()
    modifies db
    ensures db.Valid()
    ensures db.apiKeys == SweepExpiredKeys(old(db.apiKeys), now)
    ensures db.users == old(db.users) && db.wallets == old(db.wallets) && db.transactions == old(db.transactions)
  {
    db.apiKeys := SweepExpiredKeys(db.apiKeys, now);
  }
}

=== FILE: tables.dfy ===
/**
 * The database: four tables, the constraints the schema declares on them,
 * and the single-row lookups (`findOne`) the services issue.
 */
module Tables {
  import opened Base
  import opened Entities

  /**
   * The position of the first row satisfying `p`, or None: what `findOne`
   * returns when the table is read in its stored order.
   */
  function FirstWhere<T>(s: seq<T>, p: T -> bool): (r: Option<nat>)
    ensures r.Some? ==> r.value < |s| && p(s[r.value])
    ensures r.Some? ==> forall j :: 0 <= j < r.value ==> !p(s[j])
    ensures r.None? <==> forall j :: 0 <= j < |s| ==> !p(s[j])
    decreases |s|
  {
    if |s| == 0 then None
    else if p(s[0]) then Some(0)
    else match FirstWhere(s[1..], p)
      case None => None
      case Some(k) => Some(k + 1)
  }

  /** Replacing a row by one that `p` judges alike leaves `findOne` unchanged. */
  lemma {:induction false} FirstWhereUpdate<T>(s: seq<T>, p: T -> bool, i: nat, v: T)
    requires i < |s| && p(v) == p(s[i])
    ensures FirstWhere(s[i := v], p) == FirstWhere(s, p)
    decreases |s|
  {
    if i > 0 && !p(s[0]) {
      assert s[i := v][1..] == s[1..][i - 1 := v];
      FirstWhereUpdate(s[1..], p, i - 1, v);
    }
  }

  /** Appending a row `findOne` would pick, to a table with no match, makes it the answer. */
  lemma FirstWhereAppendHit<T>(s: seq<T>, p: T -> bool, v: T)
    requires p(v) && FirstWhere(s, p).None?
    ensures FirstWhere(s + [v], p) == Some(|s|)
  {
    assert p((s + [v])[|s|]);
    forall j | 0 <= j < |s|
      ensures !p((s + [v])[j])
    {
      assert (s + [v])[j] == s[j];
    }
  }

  function WalletOf(ws: seq<Wallet>, userId: UserId): Option<nat> {
    FirstWhere(ws, (w: Wallet) => w.userId == userId)
  }

  function WalletNumbered(ws: seq<Wallet>, walletNumber: string): Option<nat> {
    FirstWhere(ws, (w: Wallet) => w.walletNumber == walletNumber)
  }

  function TransactionWithReference(ts: seq<Transaction>, reference: string): Option<nat> {
    FirstWhere(ts, (t: Transaction) => t.reference == Some(reference))
  }

  function UserWithGoogleId(us: seq<User>, googleId: string): Option<nat> {
    FirstWhere(us, (u: User) => u.googleId == googleId)
  }

  function UserWithEmail(us: seq<User>, email: string): Option<nat> {
    FirstWhere(us, (u: User) => u.email == email)
  }

  /** The sum of all wallet balances. */
  function TotalBalance(ws: seq<Wallet>): Kobo {
    if |ws| == 0 then 0 else TotalBalance(ws[..|ws| - 1]) + ws[|ws| - 1].balance
  }

  /** Overwriting one wallet changes the total by the change in that wallet's balance. */
  lemma {:induction false} TotalBalanceUpdate(ws: seq<Wallet>, i: nat, w: Wallet)
    requires i < |ws|
    ensures TotalBalance(ws[i := w]) == TotalBalance(ws) - ws[i].balance + w.balance
    decreases |ws|
  {
    var n := |ws|;
    if i < n - 1 {
      assert ws[i := w][..n - 1] == ws[..n - 1][i := w];
      TotalBalanceUpdate(ws[..n - 1], i, w);
    } else {
      assert ws[i := w][..n - 1] == ws[..n - 1];
    }
  }

  // The schema's constraints.

  predicate UniqueGoogleIds(us: seq<User>) {
    forall i, j :: 0 <= i < j < |us| ==> us[i].googleId != us[j].googleId
  }

  predicate UniqueEmails(us: seq<User>) {
    forall i, j :: 0 <= i < j < |us| ==> us[i].email != us[j].email
  }

  predicate UniqueWalletNumbers(ws: seq<Wallet>) {
    forall i, j :: 0 <= i < j < |ws| ==> ws[i].walletNumber != ws[j].walletNumber
  }

  /** wallet.userId is UNIQUE: a user has at most one wallet. */
  predicate OneWalletPerUser(ws: seq<Wallet>) {
    forall i, j :: 0 <= i < j < |ws| ==> ws[i].userId != ws[j].userId
  }

  /** The wallet's foreign key to its owner. */
  predicate WalletOwnersExist(ws: seq<Wallet>, userCount: nat) {
    forall i :: 0 <= i < |ws| ==> ws[i].userId < userCount
  }

  /** transaction.reference is nullable and UNIQUE. */
  predicate UniqueReferences(ts: seq<Transaction>) {
    forall i, j :: 0 <= i < |ts| && 0 <= j < |ts| && i != j && ts[i].reference.Some? ==>
      ts[i].reference != ts[j].reference
  }

  predicate KeyPrefixesFit(ks: seq<ApiKey>) {
    forall i :: 0 <= i < |ks| && ks[i].keyPrefix.Some? ==> |ks[i].keyPrefix.value| <= KeyPrefixLength
  }

  /** The four tables, shared by the services. */
  class Store {
    var users: seq<User>
    var wallets: seq<Wallet>
    var transactions: seq<Transaction>
    var apiKeys: seq<ApiKey>

    /** The constraints the store enforces on every committed state. */
    ghost predicate Valid()
      reads this
    {
      && UniqueGoogleIds(users) && UniqueEmails(users)
      && UniqueWalletNumbers(wallets) && OneWalletPerUser(wallets)
      && WalletOwnersExist(wallets, |users|)
      && UniqueReferences(transactions)
      && KeyPrefixesFit(apiKeys)
    }

    constructor ()
      ensures Valid()
      ensures users == [] && wallets == [] && transactions == [] && apiKeys == []
    {
      users, wallets, transactions, apiKeys := [], [], [], [];
    }
  }
}
